=== FILE: README.md ===
# Authentication core of the IntegraKids back end, in Dafny

This project models the authentication decisions of the IntegraKids user service, a Spring Boot application. The cryptography and the framework are abstracted away. It covers:

- the per-request JWT filter (`JwtAuthFilter.doFilterInternal`);
- the token rules of `JwtService`;
- the two user loaders (`UserDetailsServiceImpl`, keyed by email, and `UserService`, keyed by lower-cased username);
- the `UserDetailsImpl` projection;
- registration and listing in `UserController`;
- the access-rule table of `BasicSecurityConfig.filterChain`, with the order in which a request meets the filter and the authorisation check.

Everything is a pure function over immutable datatypes. The user stores are finite maps. Every clock reading is an explicit parameter. The thread-local security context is passed in and out.

## Modules

- `Common` holds `Option` (nullable references), `Result` (a call that may throw), the exceptions involved, and the HTTP statuses.
- `Text` holds `startsWith` and `toLowerCase`.
- `Records` holds the two user shapes and their repositories as maps, plus Spring's `UserDetails` as `Details`. `entity.User` (username/password/active) is kept separate from `model.User` (email/senha).
- `UserDetailsImpl`, `UserDetailsServiceImpl`, `UserService`, `UserController`, `JwtService` and `JwtAuthFilter` each follow the source file of the same name. `SecurityConfig` follows `BasicSecurityConfig.java`.

## Abstractions

- **Tokens.** A token is `Token(Claims(subject, issuedAt, expiration, custom), signature)`. The compact text form is a `Codec`, a pair of functions `encode` and `decode`. `Faithful(codec)` says that decoding an encoded token gives the token back and that empty text decodes as blank. HMAC-SHA256 is reduced to a key tag. `SignKey(secret)` is the key derived from the configured secret.
- **Parsing.** `ParseClaimsJws` is the parse the service delegates to its JWT library, assumed to be jjwt 0.11.x (the `parserBuilder`/`signWith(Key, SignatureAlgorithm)` API). It fails as follows:
  - blank text (empty or whitespace only): `IllegalArgument`;
  - a header or payload segment holding a character outside the base64url alphabet: `Decoding` (jjwt 0.11's `DecodingException`; jjwt 0.12 reports the same text as `MalformedJwtException`, which the filter would turn into 403);
  - text that is not a token: `MalformedJwt`;
  - a token signed under another key: `BadSignature`;
  - an expiration strictly before the parse instant: `ExpiredJwt`;
  - an unsigned token: `UnsupportedJwt`.
- **Times.** Clock readings are natural numbers of milliseconds. The issue and expiry times travel as NumericDate values, which are whole seconds (section 2 of RFC 7519). A generated expiration is therefore read back truncated to the second.
- **Clock readings in the filter.** One pass of the filter may read the clock four times: the filter's own `extractUsername`, then the `extractUsername`, the `extractExpiration` and the `new Date()` inside `validateToken`. `JwtAuthFilter.Clock` carries all four readings.
- **Filter result.** A pass yields an `Outcome` and the sequence of collaborator `Step`s it took. The outcome is one of:
  - proceed with a context;
  - answer 403 and stop;
  - let an uncaught exception escape.

  The step sequence is what lets the contracts say "no lookup" and "the chain is called at most once".
- **Password encoding.** The encoder is an uninterpreted function `encode: string -> string`.
- **Failures during registration.** An exception thrown while registering is a `Fault` parameter. It names the collaborator that throws (the lookup, the encoder or the save) and the exception's message.
- **Loaders.** Both loaders take a store and return no store, so they are read-only by construction.

## Behaviour worth noting

- **Validation false.** When `validateToken` returns false, the filter leaves the context empty and still calls the chain. It does not answer 403. `JwtAuthFilter.FailedValidationProceeds` states this.
- **Reachability of that path.** With the email loader, the subject always equals the loaded username. So validation can only come back false when the expiration falls between the parse inside `isTokenExpired` and its `new Date()`. `JwtAuthFilter.NoSilentPassAtOneInstant` and `JwtAuthFilter.SilentPassInClockWindow` state this.
- **Expired tokens.** An expired token never reaches the expiry test inside `validateToken`, because the parse throws `ExpiredJwtException` first. The filter turns that exception into 403.
- **Uncaught exceptions.** Some exceptions are not in the filter's catch list, so they escape instead of producing 403:
  - a header of exactly `Bearer ` hands blank text to the parser, and `IllegalArgumentException` escapes;
  - a token segment that is not base64url (for example the header `Bearer Bearer ` followed by a token, whose first segment then holds a space) makes the parser throw a `DecodingException`, which escapes;
  - a well-signed token without an expiration causes a `NullPointerException` in `isTokenExpired`, which escapes.
- **Unknown user.** A missing user makes the email loader throw `ResponseStatusException(FORBIDDEN)`, which the filter turns into 403. The other loader, `UserService`, throws `UsernameNotFoundException` instead.
- **Registration.** `/usuarios/register` is not a public route. Only `/usuarios/logar`, `/usuarios/cadastrar`, `/error` and the paths under it, and OPTIONS requests are public. A caller therefore needs a stored email before it can register anyone, presented either as the subject of a bearer token or as HTTP Basic credentials. Both routes go through the email loader, so with no email stored nobody can register. `SecurityConfig.EmptyEmailStoreLocksRegistration` states this for the token route.
- **Case handling.** Registration checks for duplicates by exact, case-sensitive comparison. `UserService` lowers the name before its lookup. A name registered with an upper-case letter can therefore never be loaded by `UserService`.

## Model

| member | source | states |
|---|---|---|
| `Text.ToLower` | src/main/java/com/fatec/service/UserService.java:21 | lowering keeps the length, lowers each letter in place, and leaves no upper-case letter |
| `UserDetailsImpl.Of` | src/main/java/com/fatec/security/UserDetailsImpl.java:33-36 | the details of a record have its email as username and its senha as password, no authorities, and every account flag true |
| `UserDetailsImpl.Unset` | src/main/java/com/fatec/security/UserDetailsImpl.java:39 | the default constructor leaves username, password and authorities null, while every account flag is still true |
| `UserDetailsImpl.OfKeepsOnlyCredentials` | src/main/java/com/fatec/security/UserDetailsImpl.java:33-36 | the details built from a record keep exactly its email (as username) and senha (as password); two records give equal details iff they agree on those two fields |
| `UserDetailsImpl.FlagsAndAuthorities` | src/main/java/com/fatec/security/UserDetailsImpl.java:26-109 | both constructors give four true account flags and unset authorities; only the default constructor leaves username and password unset |
| `UserDetailsServiceImpl.LoadUserByUsername` | src/main/java/com/fatec/security/UserDetailsServiceImpl.java:35-46 | succeeds iff the exact email is stored, with the details of the stored record; otherwise it throws FORBIDDEN |
| `UserDetailsServiceImpl.LoadedPrincipalIsRequested` | src/main/java/com/fatec/security/UserDetailsServiceImpl.java:38-42 | in an email-keyed store, the loaded principal's username is the requested email and its password is the stored senha |
| `UserDetailsServiceImpl.CaseMatters` | src/main/java/com/fatec/security/UserDetailsServiceImpl.java:38 | an email that differs from a stored one only in case is refused with FORBIDDEN |
| `UserService.LoadUserByUsername` | src/main/java/com/fatec/service/UserService.java:20-29 | finds the record under the lowered name; a miss throws UsernameNotFound carrying the name as given; a hit yields the stored username and password, enabled iff active |
| `UserService.CaseInsensitive` | src/main/java/com/fatec/service/UserService.java:21-22 | names equal up to case both succeed with the same details, or both miss |
| `UserService.LoweringFirstChangesNothing` | src/main/java/com/fatec/service/UserService.java:21 | asking for the lowered name gives the same outcome as asking for the name |
| `UserService.MixedCaseNeverLoaded` | src/main/java/com/fatec/service/UserService.java:21 | in a username-keyed store, a record whose username holds an upper-case letter is never returned, whatever name is asked for |
| `UserController.RegisterUser` | src/main/java/com/fatec/controller/UserController.java:28-39 | a stored username gives 409 with the store unchanged and the encoder not called; otherwise, without faults, one new key and 200 with body CREATED, where the new record has the supplied id, username and active and the encoded password, and every old record is kept; any thrown exception gives 500 with its message and the store unchanged |
| `UserController.GetAll` | src/main/java/com/fatec/controller/UserController.java:23-26 | 200 with every stored record and nothing else |
| `UserController.RegisterKeepsKeying` | src/main/java/com/fatec/controller/UserController.java:31-34 | registration keeps every record under its own username |
| `UserController.ListingAfterRegistration` | src/main/java/com/fatec/controller/UserController.java:23-39 | after a successful registration the listing is the old one plus the new record with its encoded password; after any other answer it is unchanged |
| `UserController.CaseVariantsBothRegister` | src/main/java/com/fatec/controller/UserController.java:31-34 | two names differing only in case can both be registered, one after the other |
| `UserController.MixedCaseRegistrationUnloadable` | src/main/java/com/fatec/controller/UserController.java:31-34 | a username registered with an upper-case letter is never the one `UserService` loads |
| `JwtService.ParseClaimsJws` | src/main/java/com/fatec/security/JwtService.java:49 | the library parse called there succeeds iff the text decodes to a token signed with the key and not expired at the parse instant, and then yields its claims; otherwise it throws one of the six parse exceptions, undecodable base64url included |
| `JwtService.ExtractAllClaims` | src/main/java/com/fatec/security/JwtService.java:45-51 | with a parser keyed by the configured secret, the claims come back iff the token is signed with that key and not expired at the reading; otherwise a parse exception |
| `JwtService.ExtractUsername` | src/main/java/com/fatec/security/JwtService.java:72-74 | succeeds iff the text decodes to a token signed with the configured key and not expired at the reading, and then yields its subject, null when absent; otherwise one of the parse exceptions |
| `JwtService.ExtractExpiration` | src/main/java/com/fatec/security/JwtService.java:82-84 | succeeds under the same condition, yielding the expiration in milliseconds, null when absent, and never before the reading |
| `JwtService.IsTokenExpired` | src/main/java/com/fatec/security/JwtService.java:92-94 | succeeds iff the parse succeeds and the token has an expiration, and then answers whether the expiration is strictly before the second reading; a missing expiration throws NullPointer |
| `JwtService.ValidateToken` | src/main/java/com/fatec/security/JwtService.java:103-106 | an answer at all needs a well-signed token with a subject; true needs the subject to be the principal's username and the expiration not before the last reading; false means a subject mismatch or an expiration between the last two readings; failures are parse exceptions or NullPointer |
| `JwtService.CreateToken` | src/main/java/com/fatec/security/JwtService.java:115-123 | the token has the user name as subject and the configured key; it keeps exactly the given claims not named `sub`, `iat` or `exp`, with their values; issue time and expiration are the two readings (the second plus 3,600,000 ms), each less under a second |
| `JwtService.GenerateToken` | src/main/java/com/fatec/security/JwtService.java:131-134 | with a faithful codec the text decodes to a token for the user name, with no custom claims, signed with the configured key |
| `JwtService.NumericDateTruncates` | src/main/java/com/fatec/security/JwtService.java:119-120 | a Date stored in a token and read back loses less than one second, and never gains |
| `JwtService.GeneratedClaims` | src/main/java/com/fatec/security/JwtService.java:115-134 | a generated token has subject = the user name, no custom claims, and the configured key; its expiration is the second clock reading plus 3,600,000 ms, less under a second; under a non-decreasing clock the expiration is at least issue time plus 3,600,000 ms |
| `JwtService.RoundTrip` | src/main/java/com/fatec/security/JwtService.java:72-123 | parsing a generated token with the same secret, up to its expiration, yields the issued subject and expiration |
| `JwtService.StaleTokenExpires` | src/main/java/com/fatec/security/JwtService.java:45-51 | a generated token parsed after its expiration throws ExpiredJwt |
| `JwtService.ForeignKeyRejected` | src/main/java/com/fatec/security/JwtService.java:34-51 | a token signed under a different key fails parsing with a signature error |
| `JwtService.ExpiryIsStrict` | src/main/java/com/fatec/security/JwtService.java:92-94 | once parsing succeeds, the token is expired iff its expiration is strictly before the reading; an expiration equal to the reading is not expired |
| `JwtService.ValidateTokenAccepts` | src/main/java/com/fatec/security/JwtService.java:103-106 | under a non-decreasing clock, validation is true iff the token is signed with the configured key, its subject equals the principal's username, and its expiration is not before the last reading |
| `JwtService.ValidateTokenRejects` | src/main/java/com/fatec/security/JwtService.java:92-106 | validation is false only on a subject mismatch, or when the expiration falls between the last two readings; at a single instant only a mismatch |
| `JwtService.FreshTokenValidates` | src/main/java/com/fatec/security/JwtService.java:103-134 | a fresh token for u, checked before it expires, validates against a principal named u and against no other |
| `JwtService.UnsetPrincipalNeverValidates` | src/main/java/com/fatec/security/JwtService.java:103-106 | no token validates against details from the default constructor |
| `JwtAuthFilter.BearerToken` | src/main/java/com/fatec/security/JwtAuthFilter.java:58-59 | a token is taken iff the header is present and starts with the exact `Bearer `, and then header == "Bearer " + token |
| `JwtAuthFilter.Authenticate` | src/main/java/com/fatec/security/JwtAuthFilter.java:64-79 | after the lookup, the chain is called at most once and last; a context is set only when the subject is stored and validation against its details returned true, and it then holds an authentication built from those details |
| `JwtAuthFilter.DoFilterInternal` | src/main/java/com/fatec/security/JwtAuthFilter.java:50-87 | the chain is called exactly once when the request proceeds and never otherwise; only uncaught exceptions escape; without a bearer header the context is unchanged and only the chain runs; an existing authentication is kept and no lookup happens; a context changes only from empty, for the token's stored subject, after validation against its details returned true, to an authentication built from those details |
| `JwtAuthFilter.AuthenticatesExactly` | src/main/java/com/fatec/security/JwtAuthFilter.java:56-79 | from an empty context, under a non-decreasing clock and an email-keyed store: authenticated iff the token is signed with the key, names a stored email and has not expired by the last reading; the principal is that stored record, with null credentials and the principal's null authority collection passed to the constructor (which Spring reports as an empty list) |
| `JwtAuthFilter.NonBearerPassesThrough` | src/main/java/com/fatec/security/JwtAuthFilter.java:52-61 | an absent header, or one not starting with `Bearer ` (case-sensitive), means no parse and no lookup, the context unchanged, and the chain called once |
| `JwtAuthFilter.ExistingAuthenticationKept` | src/main/java/com/fatec/security/JwtAuthFilter.java:64 | an existing authentication is never replaced and no lookup occurs; only the parse can still refuse the request |
| `JwtAuthFilter.SubjectlessTokenPassesThrough` | src/main/java/com/fatec/security/JwtAuthFilter.java:60-64 | a token without a subject gives no lookup, the context unchanged, and the chain called |
| `JwtAuthFilter.FailedValidationProceeds` | src/main/java/com/fatec/security/JwtAuthFilter.java:69-79 | a false validation leaves the context as it was and still calls the chain |
| `JwtAuthFilter.NoSilentPassAtOneInstant` | src/main/java/com/fatec/security/JwtAuthFilter.java:66-79 | at a single instant, a token naming a subject is never passed through unauthenticated after a lookup |
| `JwtAuthFilter.SilentPassInClockWindow` | src/main/java/com/fatec/security/JwtAuthFilter.java:69-79 | a token for a stored subject whose expiration falls between the last two readings proceeds unauthenticated |
| `JwtAuthFilter.ExpiredTokenForbidden` | src/main/java/com/fatec/security/JwtAuthFilter.java:81-85 | an expired token gives 403 before any lookup, and the chain is not called |
| `JwtAuthFilter.UntrustedTokenForbidden` | src/main/java/com/fatec/security/JwtAuthFilter.java:81-85 | text that is no token, or a token that is unsigned or signed under another key, gives 403 before any lookup |
| `JwtAuthFilter.UnknownSubjectForbidden` | src/main/java/com/fatec/security/JwtAuthFilter.java:64-85 | a token naming an email nobody stored gives 403 from the loader's exception, and the chain is not called |
| `JwtAuthFilter.UndecodableTokenEscapes` | src/main/java/com/fatec/security/JwtAuthFilter.java:56-86 | a token whose segment is not base64url lets the decoder's exception escape the filter before any lookup |
| `JwtAuthFilter.Stop` | src/main/java/com/fatec/security/JwtAuthFilter.java:81-85 | expired, unsupported, malformed, bad-signature and response-status exceptions give 403 and stop; every other exception escapes unchanged |
| `JwtAuthFilter.EmptyBearerEscapes` | src/main/java/com/fatec/security/JwtAuthFilter.java:56-86 | the header `Bearer ` with nothing after it lets IllegalArgument escape the filter |
| `JwtAuthFilter.TokenWithoutExpirationEscapes` | src/main/java/com/fatec/security/JwtAuthFilter.java:66-86 | a well-signed token for a stored subject but without an expiration lets NullPointer escape |
| `SecurityConfig.FirstMatch` | src/main/java/com/fatec/security/BasicSecurityConfig.java:104-111 | the access of the first matching rule in declaration order, and none iff no rule matches |
| `SecurityConfig.PublicRequests` | src/main/java/com/fatec/security/BasicSecurityConfig.java:104-111 | some rule always matches; the first match permits the request iff it is login, sign-up, `/error` or below it, or an OPTIONS request, and otherwise demands authentication |
| `SecurityConfig.AccessFor` | src/main/java/com/fatec/security/BasicSecurityConfig.java:104-111 | a request is permitted without authentication iff it is login, sign-up, `/error` or below it, or an OPTIONS request |
| `SecurityConfig.ControllerRoutesProtected` | src/main/java/com/fatec/security/BasicSecurityConfig.java:111 | `/usuarios/register` and `/usuarios/all` need authentication for every method but OPTIONS |
| `SecurityConfig.Serve` | src/main/java/com/fatec/security/BasicSecurityConfig.java:93-115 | each request that reaches the security chain's JWT filter (a normalised path, not TRACE, not `/logout`, not a CORS preflight) starts from an empty context and passes the JWT filter before the authorisation check; a protected handler is reached only with an authentication |
| `SecurityConfig.NoBearerNoAccess` | src/main/java/com/fatec/security/BasicSecurityConfig.java:95-111 | for requests that reach the JWT filter and carry no bearer header, no authentication carries over: public requests reach their handler with an empty context, all others are turned away |
| `SecurityConfig.ExpiredTokenRefusedEverywhere` | src/main/java/com/fatec/security/BasicSecurityConfig.java:106-115 | for requests that reach the JWT filter, the filter runs before the rule table, so an expired token gives 403 even on public routes and on OPTIONS requests that are not CORS preflights |
| `SecurityConfig.RegistrationNeedsStoredEmail` | src/main/java/com/fatec/security/BasicSecurityConfig.java:111-115 | for any clock and any store, POST /usuarios/register reaches its handler only with a token accepted for a stored email, and the principal is that stored record's details (HTTP Basic is not modelled) |
| `SecurityConfig.EmptyEmailStoreLocksRegistration` | src/main/java/com/fatec/security/BasicSecurityConfig.java:111-115 | for any clock, with no email record stored, POST /usuarios/register never reaches its handler |

## Left out

- BCrypt: the encoder is an uninterpreted function. The model makes no claim about salting, cost or irreversibility, and does not model `matches`.
- HMAC-SHA256, base64 key decoding and the compact wire format are replaced by the key tag and the `Codec`. `SignKey` (`getSignKey`, JwtService.java:34-37) treats base64 decoding as giving a distinct key per secret. Which texts fail base64url decoding and which are otherwise malformed is left to the codec's `Undecodable` and `Garbled` outcomes.
- The parser's handling of registered claims other than `sub`, `iat` and `exp` (for example `nbf`) is not modelled. Neither are clock skew and blank-subject handling in the JWT builder.
- Clock readings before 1970 are not modelled. Readings are natural numbers, so Java's truncating division and Dafny's agree.
- `Text.ToLower`: lowers ASCII letters only. Java's locale-dependent, full-Unicode `toLowerCase` is not modelled.
- Spring wiring is not modelled: dependency injection, the `AuthenticationManager` and `DaoAuthenticationProvider` beans, HTTP Basic authentication, CORS and CSRF. `SecurityConfig.Serve` treats a `Basic` header like any other non-bearer header. In the program, the provider at BasicSecurityConfig.java:61-67 authenticates `Basic` credentials of a stored email and its senha through the email loader and BCrypt, and `httpBasic` at line 117 enables it. Modelling that would need BCrypt matching, which is left out.
- SecurityConfig.NoBearerNoAccess: in the program, a request without a bearer header but with valid HTTP Basic credentials is authenticated and reaches protected routes. The lemma states the model, where such a request is turned away.
- SecurityConfig.RegistrationNeedsStoredEmail: in the program, POST /usuarios/register is also reached with HTTP Basic credentials of a stored email and no token. The lemma covers only the token route. Both routes still need a stored email.
- SecurityConfig.Serve: `Request.path` is taken to be the normalised servlet path. Three steps of Spring Security's default chain run before the JWT filter and are not modelled:
  - the default firewall answers 400 to TRACE requests and to non-normalised URLs such as `/error/../usuarios/register`;
  - the logout filter answers GET, POST, PUT and DELETE `/logout` with a redirect, because CSRF is disabled at BasicSecurityConfig.java:98;
  - the CORS filter enabled at line 100 answers every preflight OPTIONS request itself.
  The model sends all of these through the JWT filter and the rule table.
- SecurityConfig.NoBearerNoAccess: for `/logout` the program answers with the logout redirect instead of turning the request away. For TRACE or a non-normalised URL it answers 400 instead of calling the handler. The lemma covers only requests that reach the JWT filter.
- SecurityConfig.ExpiredTokenRefusedEverywhere: a CORS preflight OPTIONS request and a `/logout` request are answered before the JWT filter runs, so an expired token on them gets no 403 in the program. The lemma covers only requests that reach the JWT filter.
- Request matching is exact on paths. `/error/**` is modelled as `/error` and everything below it. Trailing-slash and suffix matching are not modelled.
- The security context holder is thread-local in the source; here the context is passed explicitly. `WebAuthenticationDetailsSource` request details are not modelled.
- The downstream filter chain is not modelled as throwing. In the source, a `ResponseStatusException` from a handler would also hit the filter's 403 catch.
- Repositories: both are finite maps, one keyed by email and one keyed by username. Three behaviours of the real store are not modelled:
  - Spring Data's `save` upserts by document id, so a request body whose id matches another document would overwrite that document;
  - the two shapes share one collection;
  - a derived query that matches several documents throws.
- UserController.RegisterUser: the stored record keeps the id from the request body even when it is null. In the program, `save` inserts a body without an id under an id the store generates, so the stored and listed record then carries that id.
- UserService.LoadUserByUsername: does not model the IllegalArgumentException that Spring's `User` builder throws for a stored record with an empty username. `UserController.RegisterUser` can store such a record, since it does not check the username. The model then loads it successfully where the program throws.
- Null fields in the registration body are not modelled. Failures while registering are modelled through `Fault`.
- The commented-out `cadastrar`, `atualizar` and `logar` endpoints are not modelled. They are dead code. So are the login/token-issuing flow they describe and the bean-validation annotations on `model.User`. `UserLogin` is not modelled either: it is a data holder with no behaviour.
- The `/usuarios/test` greeting endpoint is not modelled; it has no authentication logic.
- Concurrency between requests is not modelled. Each request is one pure function application.

=== FILE: common.dfy ===
/** Vocabulary shared by every module: nullable Java references, the outcome
    of a call that may throw, and the HTTP status codes the service answers with. */
module Common {

  /** A Java reference that may be null. */
  datatype Option<+T> = None | Some(value: T)

  /** A call that either returns a value or throws one of the exceptions below. */
  datatype Result<+T> = Success(value: T) | Failure(error: Exception)

  /** The exceptions the core throws, catches or lets escape. */
  datatype Exception =
    | ExpiredJwt                      // the token's expiration lies before the parse instant
    | UnsupportedJwt                  // the token is not a signed claims token
    | MalformedJwt                    // the text is not a compact token at all
    | Decoding                        // a token segment holds a character outside base64url
    | BadSignature                    // the token was signed under another key
    | IllegalArgument                 // the token text handed to the parser is blank
    | NullPointer                     // a method called on an absent claim
    | ResponseStatus(status: int)     // Spring's ResponseStatusException
    | UsernameNotFound(username: string)

  const StatusOk := 200
  const StatusCreated := 201
  const StatusForbidden := 403
  const StatusConflict := 409
  const StatusInternalServerError := 500
}

=== FILE: jwt_auth_filter.dfy ===
/** JwtAuthFilter: the per-request filter that turns a bearer token into an
    authentication in the security context. The context is passed in and out
    instead of living in a thread-local holder; the downstream chain is a
    recorded step that does not throw. */
module JwtAuthFilter {
  import opened Common
  import opened Text
  import opened Records
  import JwtService
  import UserDetailsImpl
  import UserDetailsServiceImpl

  /** The exact, case-sensitive scheme prefix; 7 characters. */
  const BearerPrefix: string := "Bearer "

  /** UsernamePasswordAuthenticationToken: principal, credentials, and the
      authority collection as passed to the constructor (Spring itself reports
      a null collection as an empty list). */
  datatype Authentication = Authentication(principal: Details, credentials: Option<string>, authorities: Option<set<string>>)

  /** The security context of one request. */
  datatype Context = Context(authentication: Option<Authentication>)

  /** Every request starts with an empty context: sessions are stateless. */
  const EmptyContext := Context(None)

  /** The four clock readings one pass may take: the parse in the filter's own
      `extractUsername`, and the two parses and the `new Date()` inside
      `validateToken`. */
  datatype Clock = Clock(extractAt: nat, validateExtractAt: nat, expiryParseAt: nat, expiryNowAt: nat)

  predicate NonDecreasing(clock: Clock) {
    clock.extractAt <= clock.validateExtractAt <= clock.expiryParseAt <= clock.expiryNowAt
  }

  /** All four readings at one instant. */
  function At(now: nat): Clock {
    Clock(now, now, now, now)
  }

  /** The collaborators the filter calls, in order. */
  datatype Step = ExtractSubject | LoadUser(email: string) | Validate | Chain

  /** Proceed down the chain with a context, answer 403 and stop, or let an
      exception the filter does not catch escape. */
  datatype Outcome = Proceed(context: Context) | Forbidden | Escaped(error: Exception)

  datatype Run = Run(outcome: Outcome, steps: seq<Step>)

  /** What the filter needs besides the request: the token codec, the
      configured secret, and the email-keyed user store. */
  datatype Env = Env(codec: JwtService.Codec, secret: string, users: EmailStore)

  /** The exceptions the filter's catch clause names. */
  predicate Caught(e: Exception) {
    e.ExpiredJwt? || e.UnsupportedJwt? || e.MalformedJwt? || e.BadSignature? || e.ResponseStatus?
  }

  function ChainCalls(steps: seq<Step>): nat {
    multiset(steps)[Chain]
  }

  predicate LooksUpUser(steps: seq<Step>) {
    exists i :: 0 <= i < |steps| && steps[i].LoadUser?
  }

  /** The token is what follows the prefix of a `Bearer ` header. */
  function BearerToken(header: Option<string>): (token: Option<string>)
    ensures token.Some? <==> header.Some? && StartsWith(header.value, BearerPrefix)
    ensures token.Some? ==> header.value == BearerPrefix + token.value
  {
    if header.Some? && StartsWith(header.value, BearerPrefix) then Some(header.value[|BearerPrefix|..]) else None
  }

  /** The catch clause: a named exception sets 403 and returns, anything else
      escapes unchanged. */
  function Stop(e: Exception): (o: Outcome)
    ensures o == Forbidden <==> e in {ExpiredJwt, UnsupportedJwt, MalformedJwt, BadSignature} || e.ResponseStatus?
    ensures o != Forbidden ==> o == Escaped(e)
  {
    if Caught(e) then Forbidden else Escaped(e)
  }

  /** The authentication the filter installs for a loaded principal. */
  function AuthenticationOf(details: Details): Authentication {
    Authentication(details, None, details.authorities)
  }

  /** The well-formed shape of a run: the chain is called at most once, and
      exactly when the request proceeds, as the last step; only an exception
      outside the catch clause escapes. */
  predicate WellFormed(run: Run) {
    && ChainCalls(run.steps) <= 1
    && (run.outcome.Proceed? <==> ChainCalls(run.steps) == 1)
    && (run.outcome.Proceed? ==> run.steps[|run.steps| - 1] == Chain)
    && (run.outcome.Escaped? ==> !Caught(run.outcome.error))
  }

  /** A context was set for `username`: the user was loaded, validation of
      the token against the loaded details came back true, and the new
      authentication carries those details. */
  predicate Installs(env: Env, clock: Clock, token: string, username: string, run: Run)
    requires run.outcome.Proceed?
  {
    && username in env.users
    && var details := UserDetailsImpl.Of(env.users[username]);
    && Validate in run.steps
    && JwtService.ValidateToken(env.codec, env.secret, token, details,
                                clock.validateExtractAt, clock.expiryParseAt, clock.expiryNowAt) == Success(true)
    && run.outcome.context == Context(Some(AuthenticationOf(details)))
  }

  /** The part of `doFilterInternal` after a subject has been extracted and
      the context found empty: load, validate, and set the context on success. */
  function Authenticate(env: Env, clock: Clock, token: string, username: string, context: Context): (run: Run)
    ensures WellFormed(run)
    ensures 2 <= |run.steps| && run.steps[..2] == [ExtractSubject, LoadUser(username)]
    ensures run.outcome.Proceed? && run.outcome.context != context ==> Installs(env, clock, token, username, run)
  {
    match UserDetailsServiceImpl.LoadUserByUsername(env.users, username)
    case Failure(e) => Run(Stop(e), [ExtractSubject, LoadUser(username)])
    case Success(details) =>
      var steps := [ExtractSubject, LoadUser(username), Validate];
      match JwtService.ValidateToken(env.codec, env.secret, token, details,
                                     clock.validateExtractAt, clock.expiryParseAt, clock.expiryNowAt)
      case Failure(e) => Run(Stop(e), steps)
      case Success(valid) =>
        if valid then Run(Proceed(Context(Some(AuthenticationOf(details)))), steps + [Chain])
        else Run(Proceed(context), steps + [Chain])
  }

  /** `doFilterInternal`. */
  function DoFilterInternal(env: Env, clock: Clock, header: Option<string>, context: Context): (run: Run)
    ensures WellFormed(run)
    ensures BearerToken(header).None? ==> run == Run(Proceed(context), [Chain])
    ensures context.authentication.Some? ==> !LooksUpUser(run.steps)
    ensures context.authentication.Some? && run.outcome.Proceed? ==> run.outcome.context == context
    ensures run.outcome.Proceed? && run.outcome.context != context ==>
      && context.authentication.None?
      && var token := BearerToken(header).value;
      && JwtService.ExtractUsername(env.codec, env.secret, clock.extractAt, token).Success?
      && JwtService.ExtractUsername(env.codec, env.secret, clock.extractAt, token).value.Some?
      && Installs(env, clock, token, JwtService.ExtractUsername(env.codec, env.secret, clock.extractAt, token).value.value, run)
  {
    match BearerToken(header)
    case None => Run(Proceed(context), [Chain])
    case Some(token) =>
      match JwtService.ExtractUsername(env.codec, env.secret, clock.extractAt, token)
      case Failure(e) => Run(Stop(e), [ExtractSubject])
      case Success(None) => Run(Proceed(context), [ExtractSubject, Chain])
      case Success(Some(username)) =>
        if context.authentication.Some? then Run(Proceed(context), [ExtractSubject, Chain])
        else Authenticate(env, clock, token, username, context)
  }

  /** The request the filter authenticates, stated over the decoded token: a
      `Bearer ` header whose token is signed with the configured key, names a
      subject that is a stored email, and carries an expiration not before the
      last clock reading. */
  ghost predicate Accepts(env: Env, clock: Clock, header: Option<string>) {
    && BearerToken(header).Some?
    && var decoded := env.codec.decode(BearerToken(header).value);
    && decoded.Parsed?
    && var t := decoded.token;
    && t.signature == JwtService.SignedWith(JwtService.SignKey(env.secret))
    && t.claims.subject.Some?
    && t.claims.subject.value in env.users
    && t.claims.expiration.Some?
    && clock.expiryNowAt <= JwtService.ToMillis(t.claims.expiration.value)
  }

  /** Starting from an empty context under a clock that does not run
      backwards, the filter authenticates exactly the requests `Accepts`
      describes, and the principal is the stored record of the token's
      subject, with null credentials and the record's (unset) authorities. */
  lemma AuthenticatesExactly(env: Env, clock: Clock, header: Option<string>)
    requires NonDecreasing(clock)
    requires KeyedByEmail(env.users)
    ensures var run := DoFilterInternal(env, clock, header, EmptyContext);
      run.outcome.Proceed? && run.outcome.context.authentication.Some? <==> Accepts(env, clock, header)
    ensures Accepts(env, clock, header) ==>
      var subject := env.codec.decode(BearerToken(header).value).token.claims.subject.value;
      && DoFilterInternal(env, clock, header, EmptyContext)
         == Run(Proceed(Context(Some(Authentication(UserDetailsImpl.Of(env.users[subject]), None, None)))),
                [ExtractSubject, LoadUser(subject), Validate, Chain])
      && UserDetailsImpl.Of(env.users[subject]).username == Some(subject)
  {
    if Accepts(env, clock, header) {
      var subject := env.codec.decode(BearerToken(header).value).token.claims.subject.value;
      UserDetailsServiceImpl.LoadedPrincipalIsRequested(env.users, subject);
    }
  }

  /** A header that is absent or does not start with the exact `Bearer `
      (any other case, any other scheme) loads nobody, leaves the context
      alone and calls the chain once. */
  lemma NonBearerPassesThrough(env: Env, clock: Clock, header: Option<string>, context: Context)
    requires header.None? || !StartsWith(header.value, BearerPrefix)
    ensures DoFilterInternal(env, clock, header, context) == Run(Proceed(context), [Chain])
  {
  }

  /** An existing authentication is never replaced and nobody is loaded; the
      token is still parsed, so a bad token is still refused. */
  lemma ExistingAuthenticationKept(env: Env, clock: Clock, header: Option<string>, context: Context)
    requires context.authentication.Some?
    ensures var run := DoFilterInternal(env, clock, header, context);
      || run == Run(Proceed(context), [Chain])
      || run == Run(Proceed(context), [ExtractSubject, Chain])
      || ((run.outcome.Forbidden? || run.outcome.Escaped?) && run.steps == [ExtractSubject])
  {
  }

  /** A token without a subject: no lookup, the context unchanged, the chain called. */
  lemma SubjectlessTokenPassesThrough(env: Env, clock: Clock, header: Option<string>, context: Context)
    requires BearerToken(header).Some?
    requires JwtService.ExtractUsername(env.codec, env.secret, clock.extractAt, BearerToken(header).value) == Success(None)
    ensures DoFilterInternal(env, clock, header, context) == Run(Proceed(context), [ExtractSubject, Chain])
  {
  }

  /** A failed validation does not reject: the request goes down the chain
      with the context it came with. */
  lemma FailedValidationProceeds(env: Env, clock: Clock, header: Option<string>, context: Context, username: string)
    requires context.authentication.None?
    requires BearerToken(header).Some?
    requires JwtService.ExtractUsername(env.codec, env.secret, clock.extractAt, BearerToken(header).value) == Success(Some(username))
    requires username in env.users
    requires JwtService.ValidateToken(env.codec, env.secret, BearerToken(header).value, UserDetailsImpl.Of(env.users[username]),
                                      clock.validateExtractAt, clock.expiryParseAt, clock.expiryNowAt) == Success(false)
    ensures DoFilterInternal(env, clock, header, context)
         == Run(Proceed(context), [ExtractSubject, LoadUser(username), Validate, Chain])
  {
  }

  /** With the email-keyed loader, that path needs the expiration to fall
      between the last two clock readings: at a single instant a request whose
      token names a stored subject is authenticated or refused, never passed
      through unauthenticated. */
  lemma NoSilentPassAtOneInstant(env: Env, now: nat, header: Option<string>, username: string)
    requires KeyedByEmail(env.users)
    requires BearerToken(header).Some?
    requires JwtService.ExtractUsername(env.codec, env.secret, now, BearerToken(header).value) == Success(Some(username))
    ensures DoFilterInternal(env, At(now), header, EmptyContext) != Run(Proceed(EmptyContext), [ExtractSubject, LoadUser(username), Validate, Chain])
  {
    var token := BearerToken(header).value;
    if username in env.users {
      var details := UserDetailsImpl.Of(env.users[username]);
      UserDetailsServiceImpl.LoadedPrincipalIsRequested(env.users, username);
      var v := JwtService.ValidateToken(env.codec, env.secret, token, details, now, now, now);
      if v == Success(false) {
        JwtService.ValidateTokenRejects(env.codec, env.secret, token, details, now, now, now);
      }
    }
  }

  /** The pass-through is reachable: a token for a stored subject whose
      expiration falls between the parse in `isTokenExpired` and its
      `new Date()` validates false, and the request proceeds unauthenticated. */
  lemma SilentPassInClockWindow(env: Env, clock: Clock, header: Option<string>, t: JwtService.Token)
    requires NonDecreasing(clock)
    requires KeyedByEmail(env.users)
    requires BearerToken(header).Some? && env.codec.decode(BearerToken(header).value) == JwtService.Parsed(t)
    requires t.signature == JwtService.SignedWith(JwtService.SignKey(env.secret))
    requires t.claims.subject.Some? && t.claims.subject.value in env.users
    requires t.claims.expiration.Some?
    requires clock.expiryParseAt <= JwtService.ToMillis(t.claims.expiration.value) < clock.expiryNowAt
    ensures DoFilterInternal(env, clock, header, EmptyContext)
         == Run(Proceed(EmptyContext), [ExtractSubject, LoadUser(t.claims.subject.value), Validate, Chain])
  {
    UserDetailsServiceImpl.LoadedPrincipalIsRequested(env.users, t.claims.subject.value);
  }

  /** A token whose expiration has passed is refused with 403 before any
      lookup, and no authentication is set. */
  lemma ExpiredTokenForbidden(env: Env, clock: Clock, header: Option<string>, context: Context, t: JwtService.Token)
    requires BearerToken(header).Some? && env.codec.decode(BearerToken(header).value) == JwtService.Parsed(t)
    requires t.signature == JwtService.SignedWith(JwtService.SignKey(env.secret))
    requires JwtService.ExpiredAt(t.claims, clock.extractAt)
    ensures DoFilterInternal(env, clock, header, context) == Run(Forbidden, [ExtractSubject])
  {
  }

  /** A token signed under another key, text that is no token, or an unsigned
      token is refused with 403 before any lookup. */
  lemma UntrustedTokenForbidden(env: Env, clock: Clock, header: Option<string>, context: Context)
    requires BearerToken(header).Some?
    requires var d := env.codec.decode(BearerToken(header).value);
      || d.Garbled?
      || (d.Parsed? && d.token.signature != JwtService.SignedWith(JwtService.SignKey(env.secret)))
    ensures DoFilterInternal(env, clock, header, context) == Run(Forbidden, [ExtractSubject])
  {
  }

  /** A well-signed, unexpired token naming an email nobody stored is refused
      with 403 by the loader's exception; the chain is not called. */
  lemma UnknownSubjectForbidden(env: Env, clock: Clock, header: Option<string>, username: string)
    requires BearerToken(header).Some?
    requires JwtService.ExtractUsername(env.codec, env.secret, clock.extractAt, BearerToken(header).value) == Success(Some(username))
    requires username !in env.users
    ensures DoFilterInternal(env, clock, header, EmptyContext) == Run(Forbidden, [ExtractSubject, LoadUser(username)])
  {
  }

  /** `Bearer ` followed by nothing hands blank text to the parser, whose
      IllegalArgumentException is not among the caught ones: it escapes. */
  lemma EmptyBearerEscapes(env: Env, clock: Clock, context: Context)
    requires JwtService.Faithful(env.codec)
    ensures DoFilterInternal(env, clock, Some(BearerPrefix), context) == Run(Escaped(IllegalArgument), [ExtractSubject])
  {
    assert BearerPrefix[|BearerPrefix|..] == [];
  }

  /** A token whose header or payload segment holds a character outside the
      base64url alphabet (`Bearer Bearer ` followed by a token, say) makes the
      parser's decoder throw, and that exception is not among the caught
      ones: it escapes. */
  lemma UndecodableTokenEscapes(env: Env, clock: Clock, header: Option<string>, context: Context)
    requires BearerToken(header).Some? && env.codec.decode(BearerToken(header).value) == JwtService.Undecodable
    ensures DoFilterInternal(env, clock, header, context) == Run(Escaped(Decoding), [ExtractSubject])
  {
  }

  /** A well-signed token for a stored subject but without an expiration gets
      past the filter's parse and the lookup, then `isTokenExpired` dereferences
      the absent expiration: the NullPointerException escapes. */
  lemma TokenWithoutExpirationEscapes(env: Env, clock: Clock, header: Option<string>, t: JwtService.Token)
    requires KeyedByEmail(env.users)
    requires BearerToken(header).Some? && env.codec.decode(BearerToken(header).value) == JwtService.Parsed(t)
    requires t.signature == JwtService.SignedWith(JwtService.SignKey(env.secret))
    requires t.claims.subject.Some? && t.claims.subject.value in env.users
    requires t.claims.expiration.None?
    ensures DoFilterInternal(env, clock, header, EmptyContext).outcome == Escaped(NullPointer)
  {
    UserDetailsServiceImpl.LoadedPrincipalIsRequested(env.users, t.claims.subject.value);
  }
}

=== FILE: jwt_service.dfy ===
/** JwtService: issuing, parsing and validating bearer tokens. HMAC-SHA256,
    base64 and the compact serialisation are abstracted into a signing-key tag
    and a codec; what remains is the logic the service puts around them. */
module JwtService {
  import opened Common
  import opened Records
  import UserDetailsImpl

  /** `1000 * 60 * 60`: lifetime of an issued token, in milliseconds. */
  const TokenLifetimeMillis: nat := 3_600_000

  /** Registered claim times travel as NumericDate values, whole seconds since
      the epoch (section 2 of RFC 7519); a Date is truncated on the way in. */
  const MillisPerSecond: nat := 1000

  /** Claim names the builder sets itself; an entry of the custom claim map
      under one of them is replaced. */
  const BuilderClaimNames: set<string> := {"sub", "iat", "exp"}

  /** The HMAC key derived from the configured secret. */
  datatype SigningKey = HmacKey(material: string)

  /** `getSignKey()`: signing and parsing both derive their key from the one secret. */
  function SignKey(secret: string): SigningKey {
    HmacKey(secret)
  }

  datatype Signature = Unsigned | SignedWith(key: SigningKey)

  /** The claims a token carries; `issuedAt` and `expiration` in seconds. */
  datatype Claims = Claims(subject: Option<string>, issuedAt: Option<int>, expiration: Option<int>, custom: map<string, string>)

  datatype Token = Token(claims: Claims, signature: Signature)

  /** What the compact text decodes to, before any check: blank text, a
      header or payload segment that is not base64url, text that is not a
      token, or a token. */
  datatype Decoded = Blank | Undecodable | Garbled | Parsed(token: Token)

  /** The compact serialisation. */
  datatype Codec = Codec(encode: Token -> string, decode: string -> Decoded)

  /** A serialisation that decodes what it encodes and treats empty text as
      blank. The parser's text check also rejects whitespace-only text as
      blank; which other texts a codec classes as blank is left open. */
  ghost predicate Faithful(codec: Codec) {
    && codec.decode([]) == Blank
    && forall t :: codec.decode(codec.encode(t)) == Parsed(t)
  }

  /** A Date (milliseconds) stored as a NumericDate (seconds). */
  function ToNumericDate(millis: nat): nat {
    millis / MillisPerSecond
  }

  /** A NumericDate read back as a Date. */
  function ToMillis(seconds: int): int {
    seconds * MillisPerSecond
  }

  /** The parser's expiry test: the expiration lies strictly before `now`. */
  predicate ExpiredAt(claims: Claims, now: nat) {
    claims.expiration.Some? && ToMillis(claims.expiration.value) < now
  }

  /** A decoded token the parser accepts at `now` under `key`. */
  predicate Admits(key: SigningKey, now: nat, t: Token) {
    t.signature == SignedWith(key) && !ExpiredAt(t.claims, now)
  }

  /** The exceptions the parse can throw. */
  const ParseErrors: set<Exception> := {IllegalArgument, Decoding, MalformedJwt, BadSignature, ExpiredJwt, UnsupportedJwt}

  /** The library's `parseClaimsJws(text)` under `key` at instant `now`:
      blank text, a segment that does not base64url-decode, text that is no
      token, a foreign signature, a passed expiration, and an unsigned token
      each throw; otherwise the claims come back. */
  function ParseClaimsJws(codec: Codec, key: SigningKey, now: nat, text: string): (r: Result<Claims>)
    ensures r.Success? <==> codec.decode(text).Parsed? && Admits(key, now, codec.decode(text).token)
    ensures r.Success? ==> r.value == codec.decode(text).token.claims
    ensures r.Failure? ==> r.error in ParseErrors
  {
    match codec.decode(text)
    case Blank => Failure(IllegalArgument)
    case Undecodable => Failure(Decoding)
    case Garbled => Failure(MalformedJwt)
    case Parsed(t) =>
      if t.signature.SignedWith? && t.signature.key != key then Failure(BadSignature)
      else if ExpiredAt(t.claims, now) then Failure(ExpiredJwt)
      else if t.signature.Unsigned? then Failure(UnsupportedJwt)
      else Success(t.claims)
  }

  /** `extractAllClaims`: a parser built with the key of the configured
      secret; the claims of a token signed with that key and not expired at
      `now`, otherwise the parse exception. */
  function ExtractAllClaims(codec: Codec, secret: string, now: nat, text: string): (r: Result<Claims>)
    ensures r.Success? <==> codec.decode(text).Parsed? && Admits(SignKey(secret), now, codec.decode(text).token)
    ensures r.Success? ==> r.value == codec.decode(text).token.claims
    ensures r.Failure? ==> r.error in ParseErrors
  {
    ParseClaimsJws(codec, SignKey(secret), now, text)
  }

  /** `extractUsername`: the subject claim of a token the parser accepts,
      null when absent; the parse exceptions propagate. */
  function ExtractUsername(codec: Codec, secret: string, now: nat, text: string): (r: Result<Option<string>>)
    ensures r.Success? <==> codec.decode(text).Parsed? && Admits(SignKey(secret), now, codec.decode(text).token)
    ensures r.Success? ==> r.value == codec.decode(text).token.claims.subject
    ensures r.Failure? ==> r.error in ParseErrors
  {
    match ExtractAllClaims(codec, secret, now, text)
    case Failure(e) => Failure(e)
    case Success(claims) => Success(claims.subject)
  }

  /** `extractExpiration`: the expiration of a token the parser accepts, as a
      Date in milliseconds, null when absent; the parse exceptions propagate. */
  function ExtractExpiration(codec: Codec, secret: string, now: nat, text: string): (r: Result<Option<int>>)
    ensures r.Success? <==> codec.decode(text).Parsed? && Admits(SignKey(secret), now, codec.decode(text).token)
    ensures r.Success? ==> var claims := codec.decode(text).token.claims;
      && (r.value.Some? <==> claims.expiration.Some?)
      && (r.value.Some? ==> r.value.value == ToMillis(claims.expiration.value) && now <= r.value.value)
    ensures r.Failure? ==> r.error in ParseErrors
  {
    match ExtractAllClaims(codec, secret, now, text)
    case Failure(e) => Failure(e)
    case Success(claims) =>
      if claims.expiration.Some? then Success(Some(ToMillis(claims.expiration.value))) else Success(None)
  }

  /** `isTokenExpired`: parses at `parseAt`, then compares the expiration with
      a second clock reading `now` using `Date.before` (strictly earlier). A
      token without an expiration makes `before` dereference null. */
  function IsTokenExpired(codec: Codec, secret: string, parseAt: nat, now: nat, text: string): (r: Result<bool>)
    ensures var d := codec.decode(text);
      r.Success? <==> d.Parsed? && Admits(SignKey(secret), parseAt, d.token) && d.token.claims.expiration.Some?
    ensures r.Success? ==> r.value == (ToMillis(codec.decode(text).token.claims.expiration.value) < now)
    ensures r.Failure? ==> r.error in ParseErrors || (r.error == NullPointer && codec.decode(text).Parsed? && codec.decode(text).token.claims.expiration.None?)
  {
    match ExtractExpiration(codec, secret, parseAt, text)
    case Failure(e) => Failure(e)
    case Success(None) => Failure(NullPointer)
    case Success(Some(expiration)) => Success(expiration < now)
  }

  /** `validateToken`: the subject must equal the principal's username and the
      token must not have expired. The three clock readings are the parse in
      `extractUsername`, the parse in `extractExpiration`, and `new Date()`.
      True only for a well-signed token of this principal whose expiration is
      not before the last reading; false only on a subject mismatch or an
      expiration between the last two readings; a missing subject or
      expiration dereferences null. */
  function ValidateToken(codec: Codec, secret: string, text: string, details: Details, extractAt: nat, parseAt: nat, now: nat): (r: Result<bool>)
    ensures r.Success? ==> var d := codec.decode(text);
      && d.Parsed?
      && d.token.signature == SignedWith(SignKey(secret))
      && d.token.claims.subject.Some?
    ensures r == Success(true) ==> var claims := codec.decode(text).token.claims;
      && details.username == claims.subject
      && claims.expiration.Some?
      && now <= ToMillis(claims.expiration.value)
    ensures r == Success(false) ==> var claims := codec.decode(text).token.claims;
      || details.username != claims.subject
      || (claims.expiration.Some? && parseAt <= ToMillis(claims.expiration.value) < now)
    ensures r.Failure? ==> r.error in ParseErrors || r.error == NullPointer
  {
    match ExtractUsername(codec, secret, extractAt, text)
    case Failure(e) => Failure(e)
    case Success(None) => Failure(NullPointer)
    case Success(Some(username)) =>
      if Some(username) != details.username then Success(false)
      else
        match IsTokenExpired(codec, secret, parseAt, now, text)
        case Failure(e) => Failure(e)
        case Success(expired) => Success(!expired)
  }

  /** `createToken(claims, userName)`: the given claims, then subject, issue
      time and expiration (each from its own clock reading), signed with the
      configured key. The builder's own claims override entries of the map
      under the same names, and both times lose under a second to the
      NumericDate encoding. */
  function CreateToken(claims: map<string, string>, userName: string, secret: string, issuedAtClock: nat, expiryClock: nat): (t: Token)
    ensures t.claims.subject == Some(userName)
    ensures t.signature == SignedWith(SignKey(secret))
    ensures forall k :: k in t.claims.custom <==> k in claims && k !in BuilderClaimNames
    ensures forall k :: k in t.claims.custom ==> t.claims.custom[k] == claims[k]
    ensures t.claims.issuedAt.Some? && issuedAtClock - MillisPerSecond < ToMillis(t.claims.issuedAt.value) <= issuedAtClock
    ensures t.claims.expiration.Some?
    ensures expiryClock + TokenLifetimeMillis - MillisPerSecond < ToMillis(t.claims.expiration.value) <= expiryClock + TokenLifetimeMillis
  {
    Token(
      Claims(Some(userName), Some(ToNumericDate(issuedAtClock)), Some(ToNumericDate(expiryClock + TokenLifetimeMillis)), claims - BuilderClaimNames),
      SignedWith(SignKey(secret)))
  }

  /** `generateToken(userName)`: a token with no custom claims, which a
      faithful codec decodes to a token for `userName` under the configured
      key. */
  function GenerateToken(codec: Codec, secret: string, userName: string, issuedAtClock: nat, expiryClock: nat): (text: string)
    ensures Faithful(codec) ==> var d := codec.decode(text);
      && d.Parsed?
      && d.token.claims.subject == Some(userName)
      && d.token.claims.custom == map[]
      && d.token.signature == SignedWith(SignKey(secret))
  {
    codec.encode(CreateToken(map[], userName, secret, issuedAtClock, expiryClock))
  }

  /** Storing a Date as a NumericDate and reading it back loses less than a second. */
  lemma NumericDateTruncates(millis: nat)
    ensures millis - MillisPerSecond < ToMillis(ToNumericDate(millis)) <= millis
  {
  }

  /** The lifetime is a whole number of seconds, so it survives truncation. */
  lemma LifetimeSurvivesTruncation(base: nat)
    ensures ToNumericDate(base + TokenLifetimeMillis) == ToNumericDate(base) + TokenLifetimeMillis / MillisPerSecond
  {
  }

  /** The expiration of a token generated from clock readings `issuedAtClock`
      and then `expiryClock`, as a Date read back from the token. */
  function IssuedExpiration(expiryClock: nat): int {
    ToMillis(ToNumericDate(expiryClock + TokenLifetimeMillis))
  }

  /** What a generated token decodes to: subject = the user name, no custom
      claims, signed with the configured key, and, under a clock that does not
      run backwards, an expiration at least one lifetime after the issue time
      and within a second below the second clock reading plus the lifetime. */
  lemma GeneratedClaims(codec: Codec, secret: string, userName: string, issuedAtClock: nat, expiryClock: nat)
    requires Faithful(codec)
    ensures var d := codec.decode(GenerateToken(codec, secret, userName, issuedAtClock, expiryClock));
      && d.Parsed?
      && d.token.claims.subject == Some(userName)
      && d.token.claims.custom == map[]
      && d.token.signature == SignedWith(SignKey(secret))
      && d.token.claims.issuedAt.Some? && d.token.claims.expiration.Some?
      && ToMillis(d.token.claims.expiration.value) == IssuedExpiration(expiryClock)
      && expiryClock + TokenLifetimeMillis - MillisPerSecond < IssuedExpiration(expiryClock) <= expiryClock + TokenLifetimeMillis
      && (issuedAtClock <= expiryClock ==>
            ToMillis(d.token.claims.expiration.value) >= ToMillis(d.token.claims.issuedAt.value) + TokenLifetimeMillis)
  {
    NumericDateTruncates(expiryClock + TokenLifetimeMillis);
    LifetimeSurvivesTruncation(expiryClock);
    if issuedAtClock <= expiryClock {
      assert ToNumericDate(issuedAtClock) <= ToNumericDate(expiryClock);
    }
  }

  /** Round trip: parsing a generated token with the same secret, at any
      instant up to its expiration, yields the issued subject and expiration. */
  lemma RoundTrip(codec: Codec, secret: string, userName: string, issuedAtClock: nat, expiryClock: nat, now: nat)
    requires Faithful(codec)
    requires now <= IssuedExpiration(expiryClock)
    ensures var text := GenerateToken(codec, secret, userName, issuedAtClock, expiryClock);
      && ExtractUsername(codec, secret, now, text) == Success(Some(userName))
      && ExtractExpiration(codec, secret, now, text) == Success(Some(IssuedExpiration(expiryClock)))
  {
    GeneratedClaims(codec, secret, userName, issuedAtClock, expiryClock);
  }

  /** A generated token parsed after its expiration throws ExpiredJwtException. */
  lemma StaleTokenExpires(codec: Codec, secret: string, userName: string, issuedAtClock: nat, expiryClock: nat, now: nat)
    requires Faithful(codec)
    requires now > IssuedExpiration(expiryClock)
    ensures ExtractUsername(codec, secret, now, GenerateToken(codec, secret, userName, issuedAtClock, expiryClock)) == Failure(ExpiredJwt)
  {
    GeneratedClaims(codec, secret, userName, issuedAtClock, expiryClock);
  }

  /** A token signed under another key fails parsing with a signature error,
      at any instant, expired or not. */
  lemma ForeignKeyRejected(codec: Codec, secret: string, otherSecret: string, userName: string, issuedAtClock: nat, expiryClock: nat, now: nat)
    requires Faithful(codec)
    requires SignKey(otherSecret) != SignKey(secret)
    ensures ExtractUsername(codec, otherSecret, now, GenerateToken(codec, secret, userName, issuedAtClock, expiryClock)) == Failure(BadSignature)
  {
    GeneratedClaims(codec, secret, userName, issuedAtClock, expiryClock);
  }

  /** Expiry is strict: once parsing at `parseAt` has succeeded,
      `isTokenExpired` holds iff the expiration lies strictly before the second
      reading, so a token expiring exactly at `now` is not expired. */
  lemma ExpiryIsStrict(codec: Codec, secret: string, text: string, parseAt: nat, now: nat)
    requires ExtractExpiration(codec, secret, parseAt, text).Success?
    requires ExtractExpiration(codec, secret, parseAt, text).value.Some?
    ensures var expiration := ExtractExpiration(codec, secret, parseAt, text).value.value;
      && parseAt <= expiration
      && IsTokenExpired(codec, secret, parseAt, now, text) == Success(expiration < now)
      && (expiration == now ==> IsTokenExpired(codec, secret, parseAt, now, text) == Success(false))
  {
  }

  /** `validateToken` characterised by the decoded token, under a clock that
      does not run backwards: true iff the token is signed with the configured
      key, names a subject equal to the principal's username, and carries an
      expiration not before the last clock reading. */
  lemma ValidateTokenAccepts(codec: Codec, secret: string, text: string, details: Details, extractAt: nat, parseAt: nat, now: nat)
    requires extractAt <= parseAt <= now
    ensures ValidateToken(codec, secret, text, details, extractAt, parseAt, now) == Success(true)
      <==>
        && codec.decode(text).Parsed?
        && var t := codec.decode(text).token;
        && t.signature == SignedWith(SignKey(secret))
        && t.claims.subject.Some?
        && details.username == t.claims.subject
        && t.claims.expiration.Some?
        && now <= ToMillis(t.claims.expiration.value)
  {
  }

  /** `validateToken` answers false only for a subject that is not the
      principal's, or when the expiration falls between the parse inside
      `isTokenExpired` and its own `new Date()`; at a single instant only a
      subject mismatch makes it false. */
  lemma ValidateTokenRejects(codec: Codec, secret: string, text: string, details: Details, extractAt: nat, parseAt: nat, now: nat)
    requires ValidateToken(codec, secret, text, details, extractAt, parseAt, now) == Success(false)
    ensures codec.decode(text).Parsed?
    ensures var claims := codec.decode(text).token.claims;
      || details.username != claims.subject
      || (claims.expiration.Some? && parseAt <= ToMillis(claims.expiration.value) < now)
    ensures parseAt == now ==> details.username != codec.decode(text).token.claims.subject
  {
  }

  /** A freshly generated token for `userName`, checked before it expires,
      validates against a principal named `userName` and against no other. */
  lemma FreshTokenValidates(codec: Codec, secret: string, userName: string, issuedAtClock: nat, expiryClock: nat,
                            details: Details, extractAt: nat, parseAt: nat, now: nat)
    requires Faithful(codec)
    requires extractAt <= parseAt <= now <= IssuedExpiration(expiryClock)
    ensures ValidateToken(codec, secret, GenerateToken(codec, secret, userName, issuedAtClock, expiryClock), details, extractAt, parseAt, now)
         == Success(details.username == Some(userName))
  {
    GeneratedClaims(codec, secret, userName, issuedAtClock, expiryClock);
  }

  /** A principal from the default UserDetailsImpl constructor has no
      username, so no token validates against it: the comparison with a null
      username is false or the parse throws. */
  lemma UnsetPrincipalNeverValidates(codec: Codec, secret: string, text: string, extractAt: nat, parseAt: nat, now: nat)
    ensures ValidateToken(codec, secret, text, UserDetailsImpl.Unset(), extractAt, parseAt, now) != Success(true)
  {
  }
}

=== FILE: records.dfy ===
/** The two stored user shapes, the repositories holding them, and the
    UserDetails view Spring Security works with. */
module Records {
  import opened Common

  /** entity.User: the document registration writes and UserService reads. */
  datatype EntityUser = EntityUser(id: Option<string>, username: string, password: string, active: bool)

  /** model.User: the document UserDetailsServiceImpl reads. */
  datatype ModelUser = ModelUser(id: Option<string>, nomeResponsavel: string, email: string, senha: string)

  /** AuthUserRepository, keyed by username. */
  type UsernameStore = map<string, EntityUser>

  /** UserRepository, keyed by email. */
  type EmailStore = map<string, ModelUser>

  /** Every document sits under its own username. */
  predicate KeyedByUsername(store: UsernameStore) {
    forall k :: k in store ==> store[k].username == k
  }

  /** Every document sits under its own email. */
  predicate KeyedByEmail(store: EmailStore) {
    forall k :: k in store ==> store[k].email == k
  }

  /** `findByUsername`. */
  function FindByUsername(store: UsernameStore, username: string): Option<EntityUser> {
    if username in store then Some(store[username]) else None
  }

  /** `findByEmail`. */
  function FindByEmail(store: EmailStore, email: string): Option<ModelUser> {
    if email in store then Some(store[email]) else None
  }

  /** Spring Security's UserDetails as its callers see it; `None` is a null
      reference (an unset username, password or authority list). */
  datatype Details = Details(
    username: Option<string>,
    password: Option<string>,
    authorities: Option<set<string>>,
    accountNonExpired: bool,
    accountNonLocked: bool,
    credentialsNonExpired: bool,
    enabled: bool)
}

=== FILE: security_config.dfy ===
/** BasicSecurityConfig: the access-rule table and the order in which a
    request meets the JWT filter and the authorisation check. */
module SecurityConfig {
  import opened Common
  import opened Text
  import opened Records
  import JwtService
  import JwtAuthFilter
  import UserDetailsImpl

  datatype Method = Get | Head | Post | Put | Patch | Delete | Options | Trace

  datatype Access = PermitAll | Authenticated

  /** A request matcher: one exact path, a path with everything beneath it
      (the `/error` pattern with its double-star suffix), one HTTP method on any path, or any request. */
  datatype Matcher = PathIs(path: string) | PathUnder(base: string) | MethodIs(verb: Method) | AnyRequest

  datatype Rule = Rule(matcher: Matcher, access: Access)

  const LoginPath: string := "/usuarios/logar"
  const SignUpPath: string := "/usuarios/cadastrar"
  const ErrorBase: string := "/error"
  const RegisterPath: string := "/usuarios/register"
  const ListPath: string := "/usuarios/all"

  /** The rules of `authorizeHttpRequests`, in declaration order. */
  const Rules: seq<Rule> := [
    Rule(PathIs(LoginPath), PermitAll),
    Rule(PathIs(SignUpPath), PermitAll),
    Rule(PathUnder(ErrorBase), PermitAll),
    Rule(MethodIs(Options), PermitAll),
    Rule(AnyRequest, Authenticated)
  ]

  predicate Matches(m: Matcher, path: string, verb: Method) {
    match m
    case PathIs(p) => path == p
    case PathUnder(base) => path == base || StartsWith(path, base + "/")
    case MethodIs(x) => verb == x
    case AnyRequest => true
  }

  /** The access of the first rule that matches, if any. */
  function FirstMatch(rules: seq<Rule>, path: string, verb: Method): (a: Option<Access>)
    ensures a.None? <==> forall i :: 0 <= i < |rules| ==> !Matches(rules[i].matcher, path, verb)
    ensures a.Some? ==> exists i :: 0 <= i < |rules| && a.value == rules[i].access && Matches(rules[i].matcher, path, verb)
                                  && forall j :: 0 <= j < i ==> !Matches(rules[j].matcher, path, verb)
  {
    if rules == [] then None
    else if Matches(rules[0].matcher, path, verb) then Some(rules[0].access)
    else
      var rest := FirstMatch(rules[1..], path, verb);
      assert forall i :: 1 <= i < |rules| ==> rules[i] == rules[1..][i - 1];
      rest
  }

  /** The public requests, stated directly: login, sign-up, anything at or
      under `/error`, and every OPTIONS request. */
  predicate IsPublic(path: string, verb: Method) {
    path == LoginPath || path == SignUpPath || path == ErrorBase || StartsWith(path, ErrorBase + "/") || verb == Options
  }

  /** The rule table always has a match, the final catch-all at the latest,
      and it permits exactly the public requests; everything else, including
      `/usuarios/register` and `/usuarios/all`, needs authentication. */
  lemma {:induction false} PublicRequests(path: string, verb: Method)
    ensures FirstMatch(Rules, path, verb) == Some(if IsPublic(path, verb) then PermitAll else Authenticated)
  {
    var a := FirstMatch(Rules, path, verb);
    assert Matches(Rules[4].matcher, path, verb);
    assert a.Some?;
    var i :| 0 <= i < |Rules| && a.value == Rules[i].access && Matches(Rules[i].matcher, path, verb)
             && forall j :: 0 <= j < i ==> !Matches(Rules[j].matcher, path, verb);
    if IsPublic(path, verb) {
      var j := if path == LoginPath then 0 else if path == SignUpPath then 1 else if verb != Options then 2 else 3;
      assert Matches(Rules[j].matcher, path, verb);
      assert i <= j;
    } else {
      assert !Matches(Rules[0].matcher, path, verb);
      assert !Matches(Rules[1].matcher, path, verb);
      assert !Matches(Rules[2].matcher, path, verb);
      assert !Matches(Rules[3].matcher, path, verb);
    }
  }

  /** The access a request needs: the first matching rule's. */
  function AccessFor(path: string, verb: Method): (access: Access)
    ensures access == PermitAll <==> IsPublic(path, verb)
  {
    PublicRequests(path, verb);
    match FirstMatch(Rules, path, verb)
    case Some(access) => access
    case None => Authenticated
  }

  /** The registration and listing routes need authentication for every
      method but OPTIONS. */
  lemma ControllerRoutesProtected(verb: Method)
    requires verb != Options
    ensures AccessFor(RegisterPath, verb) == Authenticated
    ensures AccessFor(ListPath, verb) == Authenticated
  {
    assert RegisterPath[1] != (ErrorBase + "/")[1];
    assert ListPath[1] != (ErrorBase + "/")[1];
  }

  datatype Request = Request(verb: Method, path: string, authorization: Option<string>)

  /** Where a request ends: at its handler with a context, refused by the
      JWT filter with 403, turned away by the authorisation check as
      unauthenticated, or failed with an exception that escaped the filter. */
  datatype Disposition = Handled(context: JwtAuthFilter.Context) | Refused | Unauthenticated | Crashed(error: Exception)

  /** One request through the chain: sessions are stateless, so it starts with
      an empty context; the JWT filter runs first, then the authorisation
      check sees the context the filter left. */
  function Serve(env: JwtAuthFilter.Env, clock: JwtAuthFilter.Clock, request: Request): (d: Disposition)
    ensures d.Handled? && AccessFor(request.path, request.verb) == Authenticated ==> d.context.authentication.Some?
    ensures d.Handled? && d.context.authentication.None? ==> d.context == JwtAuthFilter.EmptyContext
  {
    var run := JwtAuthFilter.DoFilterInternal(env, clock, request.authorization, JwtAuthFilter.EmptyContext);
    match run.outcome
    case Forbidden => Refused
    case Escaped(e) => Crashed(e)
    case Proceed(context) =>
      if AccessFor(request.path, request.verb) == PermitAll || context.authentication.Some? then Handled(context)
      else Unauthenticated
  }

  /** Without a bearer header nothing is carried over from earlier requests:
      public requests reach their handler with an empty context, all others
      are turned away. */
  lemma NoBearerNoAccess(env: JwtAuthFilter.Env, clock: JwtAuthFilter.Clock, request: Request)
    requires JwtAuthFilter.BearerToken(request.authorization).None?
    ensures Serve(env, clock, request)
         == (if AccessFor(request.path, request.verb) == PermitAll then Handled(JwtAuthFilter.EmptyContext) else Unauthenticated)
  {
  }

  /** The filter runs before the authorisation check, so an expired token is
      refused with 403 even on a public route or an OPTIONS request. */
  lemma ExpiredTokenRefusedEverywhere(env: JwtAuthFilter.Env, clock: JwtAuthFilter.Clock, request: Request, t: JwtService.Token)
    requires JwtAuthFilter.BearerToken(request.authorization).Some?
    requires env.codec.decode(JwtAuthFilter.BearerToken(request.authorization).value) == JwtService.Parsed(t)
    requires t.signature == JwtService.SignedWith(JwtService.SignKey(env.secret))
    requires JwtService.ExpiredAt(t.claims, clock.extractAt)
    ensures Serve(env, clock, request) == Refused
  {
    JwtAuthFilter.ExpiredTokenForbidden(env, clock, request.authorization, JwtAuthFilter.EmptyContext, t);
  }

  /** Registration is reachable only with a token whose subject is a stored
      email, and the handler sees that stored record as principal; this holds
      whatever the clock does and however the store is keyed. */
  lemma RegistrationNeedsStoredEmail(env: JwtAuthFilter.Env, clock: JwtAuthFilter.Clock, request: Request)
    requires request.path == RegisterPath && request.verb == Post
    requires Serve(env, clock, request).Handled?
    ensures JwtAuthFilter.Accepts(env, clock, request.authorization)
    ensures Serve(env, clock, request).context.authentication.Some?
    ensures var subject := env.codec.decode(JwtAuthFilter.BearerToken(request.authorization).value).token.claims.subject.value;
      Serve(env, clock, request).context.authentication.value.principal == UserDetailsImpl.Of(env.users[subject])
      && Serve(env, clock, request).context.authentication.value.principal.username == Some(subject)
  {
    ControllerRoutesProtected(Post);
  }

  /** With no model.User stored, POST /usuarios/register can never reach its
      handler: registration cannot create the first account. */
  lemma EmptyEmailStoreLocksRegistration(env: JwtAuthFilter.Env, clock: JwtAuthFilter.Clock, request: Request)
    requires env.users == map[]
    requires request.path == RegisterPath && request.verb == Post
    ensures !Serve(env, clock, request).Handled?
  {
    if Serve(env, clock, request).Handled? {
      RegistrationNeedsStoredEmail(env, clock, request);
    }
  }
}

=== FILE: text.dfy ===
/** The java.lang.String operations the core relies on. */
module Text {

  /** `s.startsWith(prefix)`: an exact, case-sensitive prefix test. */
  predicate StartsWith(s: string, prefix: string) {
    |prefix| <= |s| && s[..|prefix|] == prefix
  }

  predicate IsUpper(c: char) {
    'A' <= c <= 'Z'
  }

  predicate HasUpper(s: string) {
    exists i :: 0 <= i < |s| && IsUpper(s[i])
  }

  /** `Character.toLowerCase` restricted to ASCII letters. */
  function LowerChar(c: char): (l: char)
    ensures !IsUpper(l)
    ensures !IsUpper(c) ==> l == c
    ensures IsUpper(c) ==> 'a' <= l <= 'z' && l as int - c as int == 'a' as int - 'A' as int
  {
    if IsUpper(c) then (c as int + ('a' as int - 'A' as int)) as char else c
  }

  /** `s.toLowerCase()`: every letter lowered, everything else kept, length kept. */
  function ToLower(s: string): (r: string)
    ensures |r| == |s|
    ensures forall i :: 0 <= i < |s| ==> r[i] == LowerChar(s[i])
    ensures !HasUpper(r)
  {
    if s == [] then [] else [LowerChar(s[0])] + ToLower(s[1..])
  }

  /** Lowering twice is lowering once. */
  lemma ToLowerIdempotent(s: string)
    ensures ToLower(ToLower(s)) == ToLower(s)
  {
    var once := ToLower(s);
    assert forall i :: 0 <= i < |once| ==> ToLower(once)[i] == once[i];
  }

  /** Strings that differ only in the case of their letters lower to the same string. */
  predicate SameUpToCase(a: string, b: string) {
    ToLower(a) == ToLower(b)
  }

  /** A string that holds an upper-case letter is never the lowering of anything. */
  lemma UpperNeverALowering(s: string, t: string)
    requires HasUpper(s)
    ensures ToLower(t) != s
  {
  }
}

=== FILE: user_controller.dfy ===
/** UserController: registration and listing over the username-keyed store. */
module UserController {
  import opened Common
  import opened Text
  import opened Records
  import UserService

  const UsernameTaken: string := "Username already taken. Please try again"

  /** A response body: a message, an HttpStatus value, or a list of users. */
  datatype Body = Message(text: string) | StatusValue(code: int) | Users(users: set<EntityUser>)

  datatype Response = Response(status: int, body: Body)

  /** Which collaborator, if any, throws during registration, with the
      exception's message: the lookup, the password encoder, or the save. */
  datatype Fault = NoFault | LookupThrows(message: string) | EncodeThrows(message: string) | SaveThrows(message: string)

  /** The store after the call, the response, and whether the encoder was invoked. */
  datatype Registration = Registration(store: UsernameStore, response: Response, encoded: bool)

  /** The record registration stores for a request body: as supplied, with the
      password replaced by its encoding. */
  function Encoded(user: EntityUser, encode: string -> string): EntityUser {
    user.(password := encode(user.password))
  }

  /** `registerUser`: an exact, case-sensitive duplicate check, then one insert
      of the record with its password encoded; 200 with body CREATED on
      success, 409 on a taken name, 500 with the message of any exception. */
  function RegisterUser(store: UsernameStore, user: EntityUser, encode: string -> string, fault: Fault): (r: Registration)
    ensures r.response.status in {StatusOk, StatusConflict, StatusInternalServerError}
    ensures r.response.status == StatusConflict <==> !fault.LookupThrows? && user.username in store
    ensures r.response.status == StatusConflict ==> r.response.body == Message(UsernameTaken) && !r.encoded
    ensures r.response.status == StatusOk <==> fault.NoFault? && user.username !in store
    ensures r.response.status == StatusOk ==>
      && r.response.body == StatusValue(StatusCreated)
      && r.store.Keys == store.Keys + {user.username}
      && |r.store| == |store| + 1
      && r.store[user.username] == EntityUser(user.id, user.username, encode(user.password), user.active)
      && (forall k :: k in store ==> r.store[k] == store[k])
    ensures r.response.status != StatusOk ==> r.store == store
    ensures r.response.status == StatusInternalServerError ==> r.response.body == Message(fault.message)
  {
    if fault.LookupThrows? then Registration(store, Response(StatusInternalServerError, Message(fault.message)), false)
    else if user.username in store then Registration(store, Response(StatusConflict, Message(UsernameTaken)), false)
    else if !fault.NoFault? then Registration(store, Response(StatusInternalServerError, Message(fault.message)), true)
    else Registration(store[user.username := Encoded(user, encode)], Response(StatusOk, StatusValue(StatusCreated)), true)
  }

  /** `getAll`: 200 with exactly the stored records, every one of them and nothing else. */
  function GetAll(store: UsernameStore): (r: Response)
    ensures r.status == StatusOk && r.body.Users?
    ensures forall k :: k in store ==> store[k] in r.body.users
    ensures forall u :: u in r.body.users ==> exists k :: k in store && store[k] == u
  {
    Response(StatusOk, Users(store.Values))
  }

  /** Registration keeps every document under its own username. */
  lemma RegisterKeepsKeying(store: UsernameStore, user: EntityUser, encode: string -> string, fault: Fault)
    requires KeyedByUsername(store)
    ensures KeyedByUsername(RegisterUser(store, user, encode, fault).store)
  {
  }

  /** Inserting under a new key adds exactly the inserted value to the map's values. */
  lemma {:induction false} ValuesAfterInsert(m: UsernameStore, k: string, v: EntityUser)
    requires k !in m
    ensures m[k := v].Values == m.Values + {v}
  {
    var m' := m[k := v];
    forall x | x in m'.Values ensures x in m.Values + {v} {
      var j :| j in m' && m'[j] == x;
      if j != k {
        assert j in m && m[j] == x;
      }
    }
    forall x | x in m.Values + {v} ensures x in m'.Values {
      if x != v {
        var j :| j in m && m[j] == x;
        assert j in m' && m'[j] == x;
      } else {
        assert k in m' && m'[k] == v;
      }
    }
  }

  /** After a successful registration the listing holds exactly the old
      records plus the new one with its encoded password; after any other
      answer the listing is unchanged. */
  lemma ListingAfterRegistration(store: UsernameStore, user: EntityUser, encode: string -> string, fault: Fault)
    ensures var r := RegisterUser(store, user, encode, fault);
      && (r.response.status == StatusOk ==>
            GetAll(r.store).body.users == GetAll(store).body.users + {Encoded(user, encode)})
      && (r.response.status != StatusOk ==> GetAll(r.store) == GetAll(store))
  {
    var r := RegisterUser(store, user, encode, fault);
    if r.response.status == StatusOk {
      ValuesAfterInsert(store, user.username, Encoded(user, encode));
    }
  }

  /** The duplicate check is exact: names differing only in case are both
      accepted, one after the other. */
  lemma CaseVariantsBothRegister(store: UsernameStore, first: EntityUser, second: EntityUser, encode: string -> string)
    requires first.username != second.username
    requires SameUpToCase(first.username, second.username)
    requires first.username !in store && second.username !in store
    ensures var r1 := RegisterUser(store, first, encode, NoFault);
      && r1.response.status == StatusOk
      && RegisterUser(r1.store, second, encode, NoFault).response.status == StatusOk
  {
  }

  /** A name registered with an upper-case letter can never be loaded by
      UserService, which lowers every name it is asked for. */
  lemma MixedCaseRegistrationUnloadable(store: UsernameStore, user: EntityUser, encode: string -> string, asked: string)
    requires KeyedByUsername(store)
    requires HasUpper(user.username)
    ensures var r := RegisterUser(store, user, encode, NoFault);
      var loaded := UserService.LoadUserByUsername(r.store, asked);
      loaded.Success? ==> loaded.value.username != Some(user.username)
  {
    RegisterKeepsKeying(store, user, encode, NoFault);
    UserService.MixedCaseNeverLoaded(RegisterUser(store, user, encode, NoFault).store, user.username, asked);
  }
}

=== FILE: user_details_impl.dfy ===
/** UserDetailsImpl: the UserDetails built from a model.User. */
module UserDetailsImpl {
  import opened Common
  import opened Records

  /** `new UserDetailsImpl(user)`: the username is the email, the password the
      stored senha; the authority list is never assigned and stays null; the
      four account flags are constant. */
  function Of(user: ModelUser): (d: Details)
    ensures d.username == Some(user.email) && d.password == Some(user.senha)
    ensures d.authorities.None? && AlwaysUsable(d)
  {
    Details(Some(user.email), Some(user.senha), None, true, true, true, true)
  }

  /** `new UserDetailsImpl()`: nothing is assigned, so username, password and
      authorities are null while the flags still hold. */
  function Unset(): (d: Details)
    ensures d.username.None? && d.password.None? && d.authorities.None?
    ensures AlwaysUsable(d)
  {
    Details(None, None, None, true, true, true, true)
  }

  /** The four account flags all hold. */
  predicate AlwaysUsable(d: Details) {
    d.accountNonExpired && d.accountNonLocked && d.credentialsNonExpired && d.enabled
  }

  /** The projection keeps exactly the email and the senha: two records give
      the same details iff they agree on those two fields, whatever their id
      and nomeResponsavel. */
  lemma OfKeepsOnlyCredentials(u1: ModelUser, u2: ModelUser)
    ensures Of(u1) == Of(u2) <==> u1.email == u2.email && u1.senha == u2.senha
  {
  }

  /** Neither constructor ever reports an expired, locked or disabled account,
      and neither sets authorities; only the default constructor leaves the
      username and password unset. */
  lemma FlagsAndAuthorities(u: ModelUser)
    ensures AlwaysUsable(Of(u)) && AlwaysUsable(Unset())
    ensures Of(u).authorities.None? && Unset().authorities.None?
    ensures Of(u).username.Some? && Unset().username.None? && Unset().password.None?
  {
  }
}

=== FILE: user_details_service_impl.dfy ===
/** UserDetailsServiceImpl: loads a principal from the email-keyed store. */
module UserDetailsServiceImpl {
  import opened Common
  import opened Text
  import opened Records
  import UserDetailsImpl

  /** `loadUserByUsername(email)`: an exact lookup of the email; a missing
      email throws ResponseStatusException(FORBIDDEN), not UsernameNotFoundException.
      The store is only read. */
  function LoadUserByUsername(store: EmailStore, email: string): (r: Result<Details>)
    ensures r.Success? <==> email in store
    ensures r.Failure? ==> r.error == ResponseStatus(StatusForbidden)
    ensures r.Success? ==> r.value == UserDetailsImpl.Of(store[email])
  {
    match FindByEmail(store, email)
    case Some(user) => Success(UserDetailsImpl.Of(user))
    case None => Failure(ResponseStatus(StatusForbidden))
  }

  /** When the store keeps every document under its own email, the loaded
      principal's username is exactly the requested email and its password
      the stored senha. */
  lemma LoadedPrincipalIsRequested(store: EmailStore, email: string)
    requires KeyedByEmail(store)
    requires email in store
    ensures LoadUserByUsername(store, email).value.username == Some(email)
    ensures LoadUserByUsername(store, email).value.password == Some(store[email].senha)
  {
  }

  /** No case folding: an email that differs from a stored one only in case
      is refused even though the stored one exists. */
  lemma CaseMatters(store: EmailStore, stored: string, asked: string)
    requires stored in store && asked !in store
    requires SameUpToCase(stored, asked)
    ensures LoadUserByUsername(store, asked) == Failure(ResponseStatus(StatusForbidden))
    ensures LoadUserByUsername(store, stored).Success?
  {
  }
}

=== FILE: user_service.dfy ===
/** UserService: loads a principal from the username-keyed store after
    lowering the requested name. */
module UserService {
  import opened Common
  import opened Text
  import opened Records

  /** `loadUserByUsername(username)`: looks up the lowered name; a miss throws
      UsernameNotFoundException carrying the name as given; a hit yields the
      stored username and password, disabled iff the record is inactive, with
      Spring's builder defaults for the rest (no authorities, account not
      expired, not locked, credentials not expired). */
  function LoadUserByUsername(store: UsernameStore, username: string): (r: Result<Details>)
    ensures r.Success? <==> ToLower(username) in store
    ensures r.Failure? ==> r.error == UsernameNotFound(username)
    ensures r.Success? ==>
      var user := store[ToLower(username)];
      && r.value.username == Some(user.username)
      && r.value.password == Some(user.password)
      && (r.value.enabled <==> user.active)
  {
    match FindByUsername(store, ToLower(username))
    case None => Failure(UsernameNotFound(username))
    case Some(user) => Success(Details(Some(user.username), Some(user.password), Some({}), true, true, true, user.active))
  }

  /** Two names equal up to case find the same principal or both miss (the
      two misses differ only in the name they carry). */
  lemma CaseInsensitive(store: UsernameStore, a: string, b: string)
    requires SameUpToCase(a, b)
    ensures LoadUserByUsername(store, a).Success? <==> LoadUserByUsername(store, b).Success?
    ensures LoadUserByUsername(store, a).Success? ==> LoadUserByUsername(store, a) == LoadUserByUsername(store, b)
  {
  }

  /** Looking up the lowered name is the same as looking up the name itself. */
  lemma LoweringFirstChangesNothing(store: UsernameStore, username: string)
    ensures LoadUserByUsername(store, ToLower(username)).Success? <==> LoadUserByUsername(store, username).Success?
    ensures LoadUserByUsername(store, username).Success? ==>
      LoadUserByUsername(store, ToLower(username)) == LoadUserByUsername(store, username)
  {
    ToLowerIdempotent(username);
  }

  /** A document whose username holds an upper-case letter is never returned,
      whatever name is asked for. */
  lemma MixedCaseNeverLoaded(store: UsernameStore, stored: string, asked: string)
    requires KeyedByUsername(store)
    requires HasUpper(stored)
    ensures LoadUserByUsername(store, asked).Success? ==> LoadUserByUsername(store, asked).value.username != Some(stored)
  {
    UpperNeverALowering(stored, asked);
  }
}
